=== FILE: README.md ===
# Signature pad stroke engine in Dafny

This project models the stroke engine of `SignaturePad` (`miniprogram/lib/signature_pad.ts`),
a variable-width ink pad for a mini-program canvas. The engine holds four pieces of state:

- a rolling buffer of recent points;
- a smoothed velocity and the last stroke width;
- a point-group store with one group per stroke or dot;
- the `isEmpty` flag.

Every modelled transition of that state is a pure Dafny function. It takes the pad
and returns the new pad together with the draw events it issues. An event is a background
fill, a dot, or a curve. The canvas itself is not modelled.

Modules, leaves first:

- `Wrappers`: the `Option` and `Result` types.
- `Basics`: `Last`, minimum and maximum, betweenness, and two facts about real products.
- `Primitives`: points, the Bezier curve as the engine builds it (its 4-point window and width
  pair), and the `Geometry` record of helpers from `./point` and `./bezier`. Those helpers
  are `distanceTo`, `velocityFrom`, the control points of `Bezier.fromPoints` and
  `Bezier.length`. Their code is not part of this model, so they are parameters: distance,
  velocity and length return non-negative reals, and `shape` returns the start, control and
  end points.
- `Options`: constructor options and their JavaScript `||` / `in` defaults, and the dot radius.
- `Curves`: `_reset`'s pen state, `_strokeWidth`, `_calculateCurveWidths`, `_addPoint`, and
  `Feed`. `Feed` is the loop that pushes a whole group through `_addPoint` during replay.
- `Render`: the step count and disc radii of `_drawCurve`, and the `isEmpty` flag that
  `_drawCurveSegment` clears. `Paints` says whether a list of events paints anything, and
  `DrawnIffPaints` proves the flag follows it.
- `Pad`: `clear`, the constructor, `_strokeBegin`, `_strokeUpdate` and `_strokeEnd`, whole
  strokes, and a reference jitter filter (`Retained`) that a stroke is proved to follow.
- `Replay`: `_fromData`, `fromData` and `toData`.

Arithmetic is over `real`. The sample time, which the source reads from the wall clock in
`_createPoint`, is a field of the input `Sample`.

Behaviour of the code worth noting:

- `_drawCurve` does not clamp its step count to at least one. A curve shorter than one pixel
  paints nothing and leaves `isEmpty` unchanged.
- The first curve appears at the third accepted sample, because the first point is
  duplicated. So four samples give two curves, not one (`ConstantVelocityScenario`).
- Replay of a multi-point group draws no dot at all. Apart from that leading dot, replaying the
  group a stroke recorded redraws the stroke's curves exactly (`ReplayRedrawsStroke`). Replay
  of a group without points fails (`ReplayError.EmptyGroup`), because `points[0]` is undefined.
- Under a constant sample velocity the first curve can overshoot the width for that velocity.
  It starts at the reset width (minWidth+maxWidth)/2, while the reset velocity 0 has width
  maxWidth. The smoothed velocity climbs from 0, so the first end width can land beyond the
  width for V. Every later curve moves monotonically toward that width (`FeedTowardVelocity`).

## Model

| member | source | states |
|---|---|---|
| Options.Configure | miniprogram/lib/signature_pad.ts:59-72 | a given minDistance or throttle is used as is, even 0, and only an absent one defaults to 5 or 16; a given width, weight, background or fixed dot size is used unless it is 0 or empty, which falls back to 0.5, 2.5, 0.7, transparent or the mean width; a dot-size function is used as given, and the mean-width default cannot be passed in |
| Options.InitialPenColor | miniprogram/lib/signature_pad.ts:71 | the pen colour is the given one unless absent or empty, else black |
| Options.ConfigureRoundTrip | miniprogram/lib/signature_pad.ts:59-72 | passing every setting of a configuration explicitly reproduces it, when no setting is 0 or empty |
| Curves.StrokeWidth | miniprogram/lib/signature_pad.ts:289-291 | the width is at least minWidth and at least maxWidth/(v+1), equals one of them, and is at most maxWidth when the bounds are ordered |
| Curves.StrokeWidthAntitone | miniprogram/lib/signature_pad.ts:289-291 | a higher velocity never gives a thicker stroke |
| Curves.SmoothedVelocity | miniprogram/lib/signature_pad.ts:272-274 | the smoothed velocity lies between the new sample's velocity and the previous estimate, and moves from the estimate by exactly velocityFilterWeight times the gap to the sample |
| Curves.SmoothingGap | miniprogram/lib/signature_pad.ts:272-274 | after one smoothing step the fraction 1 - velocityFilterWeight of the gap between the estimate and the sample remains |
| Curves.CurveWidths | miniprogram/lib/signature_pad.ts:268-287 | the curve starts at the previous width; its end width is at least minWidth, at most maxWidth under ordered bounds, and becomes the pen's width and velocity state |
| Curves.Fresh | miniprogram/lib/signature_pad.ts:227-230 | the reset width (minWidth+maxWidth)/2 lies within ordered bounds |
| Curves.AddPoint | miniprogram/lib/signature_pad.ts:243-266 | a curve is returned iff two points were already buffered; its window has 4 points, ends with the new point and duplicates the first point when 2 were buffered; its end width and the new velocity are those computed from the window's middle pair; the buffer keeps the last min(k+1, 3) points |
| Curves.Feed | miniprogram/lib/signature_pad.ts:368-385 | from a buffer of k <= 3 points, n pushed points leave min(k+n, 3) buffered and yield max(0, n - max(0, 2-k)) curves |
| Curves.FeedBuffer | miniprogram/lib/signature_pad.ts:243-266 | after any number of pushes the buffer holds the three most recent points pushed |
| Curves.FeedWidthsChain | miniprogram/lib/signature_pad.ts:256-262 | consecutive curves share the joint width, the first starts at the pen's width, and the windows of consecutive curves overlap in three points |
| Curves.FeedWidthsInRange | miniprogram/lib/signature_pad.ts:268-291 | with ordered bounds every curve's widths and the final width stay within [minWidth, maxWidth] |
| Curves.FeedAfterReset | miniprogram/lib/signature_pad.ts:243-266 | n points fed after a reset give exactly max(0, n-2) curves and leave the last min(n, 3) buffered |
| Curves.FirstCurve | miniprogram/lib/signature_pad.ts:248-257 | the first curve after a reset is built from [p0, p0, p1, p2] with widths computed between p0 and p1 |
| Curves.AddPointToward | miniprogram/lib/signature_pad.ts:243-291 | for a point pushed at a constant velocity V, the new velocity lies between the old one and V; a curve ends at the width for the new velocity, and the gap to V shrinks by exactly the factor 1 - velocityFilterWeight |
| Curves.FeedTowardVelocity | miniprogram/lib/signature_pad.ts:268-291 | with points at a constant velocity V, the smoothed velocity ends between its start and V, the first curve ends between the widths for the pen's velocity and for V, and every later curve ends between its start width and the width for V |
| Curves.ConstantVelocityScenario | miniprogram/lib/signature_pad.ts:268-291 | with widths 0.5/2.5, weight 0.7 and unit velocity, four points give two curves and the first runs from 1.5 down to 2.5/1.7 |
| Render.Steps | miniprogram/lib/signature_pad.ts:306 | the step count is even and within 2 below twice the curve length |
| Render.DrawCurve | miniprogram/lib/signature_pad.ts:301-339 | exactly Steps discs; disc i sits at t = i/Steps in [0, 1), on the cubic Bernstein point of the curve's control points at t, with radius min(start + t³(end - start), maxWidth); every radius is at most maxWidth and lies between the end widths or the cap; the first disc sits on the start point |
| Render.SegmentWidthBounds | miniprogram/lib/signature_pad.ts:330-333 | for t in [0, 1) the interpolated radius is capped at maxWidth and lies between the start and end widths, or at the cap when that is lower |
| Render.DrawnIffPaints | miniprogram/lib/signature_pad.ts:293-299 | the pad stays empty through a list of draw events exactly when none of them paints a disc |
| Pad.ToPoint | miniprogram/lib/signature_pad.ts:234-240 | a point keeps the sample's coordinates, the canvas offset being 0, and its clock reading |
| Pad.Reset | miniprogram/lib/signature_pad.ts:227-231 | the buffer is emptied, the velocity is 0 and the width is (minWidth+maxWidth)/2; the store, pen colour and empty flag are untouched |
| Pad.Clear | miniprogram/lib/signature_pad.ts:84-95 | the store is empty, the pad reports empty, the pen is reset and only the background is filled |
| Pad.Create | miniprogram/lib/signature_pad.ts:55-82 | a new pad's configuration is the one resolved from the options; the pad is empty with a reset pen and the configured pen colour, and the only drawing is one background fill |
| Pad.Intake | miniprogram/lib/signature_pad.ts:191-219 | at most one event, a dot or a curve; the pad is empty afterwards iff it was and nothing painted |
| Pad.Begin | miniprogram/lib/signature_pad.ts:172-181 | the empty flag clears iff the events paint |
| Pad.Update | miniprogram/lib/signature_pad.ts:183-220 | at most one event; the pen colour is kept; the empty flag clears iff the events paint |
| Pad.End | miniprogram/lib/signature_pad.ts:222-224 | the last sample of a stroke is handled as an update: at most one event, the pen colour kept, the empty flag cleared iff the events paint |
| Pad.UpdateFilter | miniprogram/lib/signature_pad.ts:195-205 | on a non-empty store, an update changes nothing and draws nothing iff the sample is within minDistance of the last recorded point |
| Pad.UpdateRecords | miniprogram/lib/signature_pad.ts:205-219 | an accepted sample is pushed to the buffer and appended to the last group only; a group's first sample draws a dot, a later one draws exactly the curve `_addPoint` returns, in the group's colour, present iff two points were buffered |
| Pad.BeginStartsGroup | miniprogram/lib/signature_pad.ts:172-181 | begin appends a group in the pen colour holding the sample, draws exactly one dot and restarts the pen |
| Pad.UpdateAfterClear | miniprogram/lib/signature_pad.ts:183-189 | an update after clear starts a fresh stroke with one group and one dot |
| Pad.CreateSound | miniprogram/lib/signature_pad.ts:55-82 | a new pad with ordered width bounds satisfies the invariant |
| Pad.UpdateKeepsSound | miniprogram/lib/signature_pad.ts:172-232 | clear, begin and update keep buffer length at most 3, the width within bounds and every group non-empty |
| Pad.UpdatesInStroke | miniprogram/lib/signature_pad.ts:195-219 | updates record exactly the samples the reference filter keeps, draw no dot, and draw one curve per kept sample from the third on |
| Pad.StrokeShape | miniprogram/lib/signature_pad.ts:172-224 | a stroke adds one group of the kept samples, draws one dot first, and draws max(0, n-2) curves |
| Pad.UpdatesFeed | miniprogram/lib/signature_pad.ts:195-219 | updates inside a stroke draw exactly the curves that feeding the retained samples through `_addPoint` yields, and leave the pen where that feed leaves it |
| Pad.JitterScenario | miniprogram/lib/signature_pad.ts:197-205 | with minDistance 5, samples at x = 0, 1, 2, 10 keep only x = 0 and x = 10 |
| Replay.ReplayGroup | miniprogram/lib/signature_pad.ts:364-394 | every group restarts the pen from the reset state: a group of n > 1 points takes the pen colour and draws, in its colour and with no dot, the n-2 curves that feeding its points from a reset pen yields, leaving the pen where that feed does; a single point draws one dot and leaves a reset pen; an empty group fails |
| Replay.ReplayRedrawsStroke | miniprogram/lib/signature_pad.ts:172-224 | replaying the group a stroke recorded, into any pad, draws the stroke's events without its leading dot and leaves the same pen and pen colour; a stroke reduced to one sample replays as the same dot |
| Replay.ReplayAll | miniprogram/lib/signature_pad.ts:359-395 | replay succeeds iff no group is empty, and otherwise fails at the first empty group |
| Replay.ReplayAllState | miniprogram/lib/signature_pad.ts:364-394 | a successful replay leaves the store untouched and the pen colour as that of the last multi-point group, and the pad is empty afterwards iff it was and nothing painted |
| Replay.ReplayCounts | miniprogram/lib/signature_pad.ts:364-394 | replay draws one dot per single-point group and n-2 curves per group of n > 1 points |
| Replay.FromData | miniprogram/lib/signature_pad.ts:115-125 | fromData succeeds iff no group is empty, otherwise fails at the first empty group; on success the store is the groups given and the background is filled first |
| Replay.ToData | miniprogram/lib/signature_pad.ts:127-129 | toData returns the store, group by group |
| Replay.FromDataSucceeds | miniprogram/lib/signature_pad.ts:115-125 | fromData succeeds iff no group is empty |
| Replay.FromDataRoundTrip | miniprogram/lib/signature_pad.ts:115-129 | after fromData of non-empty groups, toData returns the groups given; the background comes first, the pad is empty iff nothing painted, the pen colour is that of the last multi-point group, and the dots and curves number as replay draws them |
| Replay.FromDataEmptyIsClear | miniprogram/lib/signature_pad.ts:115-125 | importing an empty store is the same as clear |
| Replay.CaptureReplay | miniprogram/lib/signature_pad.ts:115-129 | the store of any sound pad imports into any pad without error and exports unchanged |
| Replay.ReplayAllKeepsWidth | miniprogram/lib/signature_pad.ts:359-395 | replay keeps the pen width within ordered bounds |
| Replay.FromDataSound | miniprogram/lib/signature_pad.ts:115-125 | a fromData of non-empty groups with ordered bounds leaves a sound pad |

## Left out

- Touch handlers (`handleTouchStart` and the rest, lines 131-169): they only unpack the host's event objects. The model takes `Sample` values directly.
- `throttle` (lines 74-76): it defers calls with a timer, and its code is not part of this model. `Update` models `_strokeUpdate` itself.
- `fromDataURL` (lines 97-109): a stub that only resets the pen and clears `isEmpty`.
- Canvas calls: `fillStyle`, `clearRect`, `fillRect`, `beginPath`, `moveTo`, `arc`, `closePath` and `fill`. They become the events `Background`, `Dot` and `CurveDrawn`. `Render.DrawCurve` gives the disc centres and radii of a curve. Pixels are not modelled.
- `miniprogram/pages/signature/signature.ts`: page plumbing over global state. It is not the engine, and its `_strokeUpdate` calls itself without end on an empty timeline.
- `Point` and `Bezier` internals: Euclidean distance with a square root, velocity as distance over elapsed time, control-point construction and arc length. They are the `Geometry` parameters. The only assumption is that distance, velocity and length are non-negative reals.
- Floating point: all arithmetic is over `real`. There is no IEEE rounding, and velocity has no infinite or NaN value when the elapsed time is zero.
- Options.Configure: the weight is typed as [0, 1]. A weight outside that range can make the smoothed velocity negative and the width formula divide by zero. Other values that JavaScript's `||` treats as falsy (NaN, undefined inside a present key) are not modelled.
- Options.DotRadius: a caller-supplied `dotSize` function is a pure zero-argument Dafny function, so a size that changes between dots is not modelled.
- Replay.FromData, Replay.ToData: value semantics. The source adopts the caller's array by reference in `fromData` (line 124) and returns the live `_data` array from `toData` (line 128). So later strokes push into the caller's array and groups (lines 178 and 214), and a caller that mutates the result of `toData` changes the pad. The model copies values, so neither aliasing effect exists in it.
- Replay.FromData: when an empty group makes replay fail, the model returns only the error. The source has by then cleared the pad and drawn the groups before it, and `toData` would return an empty store.
- The `_ctx.fillStyle` assignment in `_reset` and the unused `_mouseButtonDown` field.

=== FILE: basics.dfy ===
/** Small helpers on sequences and numbers shared by the other modules. */
module Basics {

  /** The last element of a non-empty sequence. */
  function Last<T>(s: seq<T>): T
    requires |s| > 0
  {
    s[|s| - 1]
  }

  function Min(a: int, b: int): int { if a <= b then a else b }

  function Max(a: int, b: int): int { if a >= b then a else b }

  function MinR(a: real, b: real): real { if a <= b then a else b }

  function MaxR(a: real, b: real): real { if a >= b then a else b }

  /** x lies between a and b, in whichever order they come. */
  predicate Within(x: real, a: real, b: real)
  {
    MinR(a, b) <= x <= MaxR(a, b)
  }

  lemma MulNonNeg(x: real, y: real)
    requires x >= 0.0 && y >= 0.0
    ensures x * y >= 0.0
  {
  }

  /** A product with a positive factor is non-negative only when the other factor is. */
  lemma FactorNonNeg(x: real, y: real)
    requires y > 0.0 && x * y >= 0.0
    ensures x >= 0.0
  {
  }
}

=== FILE: curves.dfy ===
/**
 The rolling point buffer and the velocity/width state of one stroke
 (`_addPoint`, `_calculateCurveWidths`, `_strokeWidth`, the pen part of `_reset`).
 */
module Curves {
  import opened Wrappers
  import opened Basics
  import opened Primitives
  import opened Options

  /** The per-stroke state: the last buffered points, the smoothed velocity and the last width. */
  datatype Pen = Pen(lastPoints: seq<Point>, lastVelocity: NonNeg, lastWidth: real)

  /** The width pair handed to `Bezier.fromPoints`. */
  datatype Widths = Widths(start: real, end: real)

  /** The state `_reset` establishes at the start of every stroke. */
  function Fresh(cfg: Config): (pen: Pen)
    ensures WidthBounds(cfg) ==> cfg.minWidth <= pen.lastWidth <= cfg.maxWidth
  {
    Pen([], 0.0, (cfg.minWidth + cfg.maxWidth) / 2.0)
  }

  /** `_strokeWidth`: the width for a velocity, the larger of maxWidth/(v+1) and minWidth. */
  function StrokeWidth(cfg: Config, v: NonNeg): (w: real)
    ensures w >= cfg.minWidth && w >= cfg.maxWidth / (v + 1.0)
    ensures w == cfg.minWidth || w == cfg.maxWidth / (v + 1.0)
    ensures WidthBounds(cfg) ==> w <= cfg.maxWidth
  {
    var q := cfg.maxWidth / (v + 1.0);
    DivBelow(cfg.maxWidth, v);
    if q >= cfg.minWidth then q else cfg.minWidth
  }

  lemma DivBelow(m: real, v: real)
    requires v >= 0.0
    ensures m >= 0.0 ==> 0.0 <= m / (v + 1.0) <= m
  {
    if m >= 0.0 {
      var q := m / (v + 1.0);
      assert q * (v + 1.0) == m;
      assert q >= 0.0;
      assert q * v >= 0.0;
    }
  }

  /** Faster pointer motion never gives a thicker line. */
  lemma StrokeWidthAntitone(cfg: Config, v1: NonNeg, v2: NonNeg)
    requires 0.0 <= cfg.maxWidth && v1 <= v2
    ensures StrokeWidth(cfg, v2) <= StrokeWidth(cfg, v1)
  {
    var m := cfg.maxWidth;
    var a := m / (v1 + 1.0);
    var b := m / (v2 + 1.0);
    assert a * (v1 + 1.0) == m;
    assert b * (v2 + 1.0) == m;
    DivBelow(m, v2);
    assert b * (v2 - v1) >= 0.0 by { MulNonNeg(b, v2 - v1); }
    assert b * (v1 + 1.0) <= b * (v2 + 1.0);
    assert (a - b) * (v1 + 1.0) == m - b * (v1 + 1.0);
    FactorNonNeg(a - b, v1 + 1.0);
  }

  /** The exponentially smoothed velocity: a convex mix of the new sample's velocity and the previous estimate. */
  function SmoothedVelocity(cfg: Config, geo: Geometry, lastVelocity: NonNeg, start: Point, end: Point): (v: NonNeg)
    ensures MinR(geo.velocity(end, start), lastVelocity) <= v <= MaxR(geo.velocity(end, start), lastVelocity)
    ensures v - lastVelocity == cfg.velocityFilterWeight * (geo.velocity(end, start) - lastVelocity)
  {
    var w := cfg.velocityFilterWeight;
    var sample := geo.velocity(end, start);
    Mix(w, sample, lastVelocity);
    w * sample + (1.0 - w) * lastVelocity
  }

  /**
   One smoothing step closes the fraction velocityFilterWeight of the gap
   between the previous estimate and the new sample's velocity, so the
   fraction 1 - weight of that gap remains.
   */
  lemma SmoothingGap(cfg: Config, geo: Geometry, lastVelocity: NonNeg, start: Point, end: Point)
    ensures var v := SmoothedVelocity(cfg, geo, lastVelocity, start, end);
      var sample := geo.velocity(end, start);
      sample - v == (1.0 - cfg.velocityFilterWeight) * (sample - lastVelocity)
  {
  }

  lemma Mix(w: real, a: real, b: real)
    requires 0.0 <= w <= 1.0
    ensures MinR(a, b) <= w * a + (1.0 - w) * b <= MaxR(a, b)
  {
    var lo := MinR(a, b);
    var hi := MaxR(a, b);
    var x := w * a + (1.0 - w) * b;
    MulNonNeg(w, a - lo);
    MulNonNeg(1.0 - w, b - lo);
    MulNonNeg(w, hi - a);
    MulNonNeg(1.0 - w, hi - b);
    assert x - lo == w * (a - lo) + (1.0 - w) * (b - lo);
    assert hi - x == w * (hi - a) + (1.0 - w) * (hi - b);
  }

  /**
   `_calculateCurveWidths`: the new curve starts at the previous width and ends
   at the width for the smoothed velocity, which becomes the pen's state.
   */
  function CurveWidths(cfg: Config, geo: Geometry, pen: Pen, start: Point, end: Point): (r: (Widths, Pen))
    ensures r.0.start == pen.lastWidth
    ensures r.0.end >= cfg.minWidth
    ensures WidthBounds(cfg) ==> r.0.end <= cfg.maxWidth
    ensures r.1.lastWidth == r.0.end && r.1.lastPoints == pen.lastPoints
    ensures r.1.lastVelocity == SmoothedVelocity(cfg, geo, pen.lastVelocity, start, end)
    ensures r.0.end == StrokeWidth(cfg, r.1.lastVelocity)
  {
    var v := SmoothedVelocity(cfg, geo, pen.lastVelocity, start, end);
    var w := StrokeWidth(cfg, v);
    (Widths(pen.lastWidth, w), pen.(lastVelocity := v, lastWidth := w))
  }

  /** The most recent points of a sequence, at most three of them. */
  function LastThree(pts: seq<Point>): seq<Point>
  {
    if |pts| <= 3 then pts else pts[|pts| - 3..]
  }

  lemma LastThreeAppend(s: seq<Point>, t: seq<Point>)
    ensures LastThree(LastThree(s) + t) == LastThree(s + t)
  {
    if |s| > 3 {
      var u := LastThree(s) + t;
      var v := s + t;
      assert u == v[|s| - 3..];
      if |u| > 3 {
        assert u[|u| - 3..] == v[|v| - 3..];
      }
    }
  }

  /**
   `_addPoint`: push a point; from the third buffered point on, build a curve
   from a 4-point window (duplicating the first point when only three are
   buffered) and slide the window.
   */
  function AddPoint(cfg: Config, geo: Geometry, pen: Pen, p: Point): (r: (Pen, Option<Curve>))
    ensures r.1.Some? <==> |pen.lastPoints| >= 2
    ensures |pen.lastPoints| <= 3 ==> r.0.lastPoints == LastThree(pen.lastPoints + [p])
    ensures |pen.lastPoints| <= 3 ==> |r.0.lastPoints| == Min(|pen.lastPoints| + 1, 3)
    ensures r.1.Some? && |pen.lastPoints| <= 3 ==>
      && |r.1.value.window| == 4
      && r.1.value.window[1..] == r.0.lastPoints
      && r.1.value.window[3] == p
    ensures |pen.lastPoints| == 2 ==>
      r.1.value.window == [pen.lastPoints[0], pen.lastPoints[0], pen.lastPoints[1], p]
    ensures |pen.lastPoints| == 3 ==> r.1.value.window == pen.lastPoints + [p]
    ensures r.1.Some? ==> r.1.value.startWidth == pen.lastWidth && r.1.value.endWidth == r.0.lastWidth
    ensures r.1.None? ==> r.0.lastWidth == pen.lastWidth && r.0.lastVelocity == pen.lastVelocity
    ensures r.1.Some? ==> (
      && |r.1.value.window| >= 4
      && var cw := CurveWidths(cfg, geo, pen, r.1.value.window[1], r.1.value.window[2]);
         r.1.value.endWidth == cw.0.end && r.0.lastVelocity == cw.1.lastVelocity)
    ensures r.1.Some? ==> cfg.minWidth <= r.1.value.endWidth
    ensures r.1.Some? && WidthBounds(cfg) ==> r.1.value.endWidth <= cfg.maxWidth
  {
    var buf := pen.lastPoints + [p];
    if |buf| > 2 then
      var window := if |buf| == 3 then [buf[0]] + buf else buf;
      var (widths, pen') := CurveWidths(cfg, geo, pen, window[1], window[2]);
      (pen'.(lastPoints := window[1..]), Some(Curve(window, widths.start, widths.end)))
    else
      (pen.(lastPoints := buf), None)
  }

  /** The curves of a list, in order, dropping the absent ones. */
  function Present(c: Option<Curve>): seq<Curve>
  {
    if c.Some? then [c.value] else []
  }

  /**
   Feeding a sequence of points through `_addPoint`, as replay does: from a
   buffer of k <= 3 points, the buffer ends with min(k + n, 3) points and the
   first max(0, 2 - k) points produce no curve while every later one produces one.
   */
  function Feed(cfg: Config, geo: Geometry, pen: Pen, pts: seq<Point>): (r: (Pen, seq<Curve>))
    decreases |pts|
    ensures |pen.lastPoints| <= 3 ==> |r.0.lastPoints| == Min(|pen.lastPoints| + |pts|, 3)
    ensures |pen.lastPoints| <= 3 ==> |r.1| == Max(0, |pts| - Max(0, 2 - |pen.lastPoints|))
  {
    if pts == [] then (pen, [])
    else
      var (pen1, c) := AddPoint(cfg, geo, pen, pts[0]);
      var (pen2, cs) := Feed(cfg, geo, pen1, pts[1..]);
      (pen2, Present(c) + cs)
  }

  lemma LastThreeCons(a: seq<Point>, pts: seq<Point>)
    requires pts != []
    ensures LastThree(LastThree(a + [pts[0]]) + pts[1..]) == LastThree(a + pts)
  {
    LastThreeAppend(a + [pts[0]], pts[1..]);
    assert a + [pts[0]] + pts[1..] == a + pts;
  }

  /** One step of `Feed`: the first point goes through `_addPoint`, the rest follow from the new pen. */
  lemma FeedStep(cfg: Config, geo: Geometry, pen: Pen, pts: seq<Point>)
    requires pts != []
    ensures var r := AddPoint(cfg, geo, pen, pts[0]);
      var rest := Feed(cfg, geo, r.0, pts[1..]);
      Feed(cfg, geo, pen, pts) == (rest.0, Present(r.1) + rest.1)
  {
  }

  /** Feeding points leaves the three most recent of everything buffered so far in the buffer. */
  lemma {:induction false} FeedBuffer(cfg: Config, geo: Geometry, pen: Pen, pts: seq<Point>)
    requires |pen.lastPoints| <= 3
    ensures Feed(cfg, geo, pen, pts).0.lastPoints == LastThree(pen.lastPoints + pts)
    decreases |pts|
  {
    if pts == [] {
      assert pen.lastPoints + pts == pen.lastPoints;
    } else {
      var pen1 := AddPoint(cfg, geo, pen, pts[0]).0;
      FeedStep(cfg, geo, pen, pts);
      FeedBuffer(cfg, geo, pen1, pts[1..]);
      LastThreeCons(pen.lastPoints, pts);
    }
  }

  /**
   Consecutive curves share their joint width: each curve starts at the width
   the previous one ended with, the first starts at the pen's width and the
   pen keeps the last curve's end width. With a buffer of at most three points
   consecutive windows overlap in three points.
   */
  lemma {:induction false} FeedWidthsChain(cfg: Config, geo: Geometry, pen: Pen, pts: seq<Point>)
    ensures var (pen', cs) := Feed(cfg, geo, pen, pts);
      && (|cs| == 0 ==> pen'.lastWidth == pen.lastWidth)
      && (|cs| > 0 ==> cs[0].startWidth == pen.lastWidth && cs[|cs| - 1].endWidth == pen'.lastWidth)
      && (forall i :: 0 <= i < |cs| - 1 ==> cs[i + 1].startWidth == cs[i].endWidth)
    ensures var (pen', cs) := Feed(cfg, geo, pen, pts);
      |pen.lastPoints| <= 3 ==>
        && (forall i :: 0 <= i < |cs| ==> |cs[i].window| == 4)
        && (forall i :: 0 <= i < |cs| - 1 ==> cs[i + 1].window[..3] == cs[i].window[1..])
    decreases |pts|
  {
    if pts != [] {
      var (pen1, c) := AddPoint(cfg, geo, pen, pts[0]);
      var (pen2, cs) := Feed(cfg, geo, pen1, pts[1..]);
      FeedWidthsChain(cfg, geo, pen1, pts[1..]);
      if c.Some? && |cs| > 0 {
        assert cs[0].startWidth == pen1.lastWidth;
        if |pen.lastPoints| <= 3 {
          assert |pen1.lastPoints| == 3;
          FeedFirstWindow(cfg, geo, pen1, pts[1..]);
        }
      }
    }
  }

  /** With a full buffer, the next curve's window begins with the buffered points. */
  lemma FeedFirstWindow(cfg: Config, geo: Geometry, pen: Pen, pts: seq<Point>)
    requires |pen.lastPoints| == 3 && |pts| > 0
    ensures var cs := Feed(cfg, geo, pen, pts).1;
      |cs| > 0 && cs[0].window[..3] == pen.lastPoints
  {
    var (pen1, c) := AddPoint(cfg, geo, pen, pts[0]);
    assert c.value.window == pen.lastPoints + [pts[0]];
  }

  /** When the pen's width is within bounds, every curve's widths and the final width stay within bounds. */
  lemma {:induction false} FeedWidthsInRange(cfg: Config, geo: Geometry, pen: Pen, pts: seq<Point>)
    requires WidthBounds(cfg) && cfg.minWidth <= pen.lastWidth <= cfg.maxWidth
    ensures var (pen', cs) := Feed(cfg, geo, pen, pts);
      && cfg.minWidth <= pen'.lastWidth <= cfg.maxWidth
      && (forall i :: 0 <= i < |cs| ==>
            && cfg.minWidth <= cs[i].startWidth <= cfg.maxWidth
            && cfg.minWidth <= cs[i].endWidth <= cfg.maxWidth)
    decreases |pts|
  {
    if pts != [] {
      var (pen1, c) := AddPoint(cfg, geo, pen, pts[0]);
      FeedWidthsInRange(cfg, geo, pen1, pts[1..]);
    }
  }

  /**
   Feeding n points after a reset yields max(0, n - 2) curves and leaves the
   last min(n, 3) points buffered.
   */
  lemma FeedAfterReset(cfg: Config, geo: Geometry, pts: seq<Point>)
    ensures var (pen', cs) := Feed(cfg, geo, Fresh(cfg), pts);
      && |cs| == Max(0, |pts| - 2)
      && |pen'.lastPoints| == Min(|pts|, 3)
      && pen'.lastPoints == LastThree(pts)
  {
    FeedBuffer(cfg, geo, Fresh(cfg), pts);
    assert Fresh(cfg).lastPoints + pts == pts;
  }

  /**
   The first curve of a stroke duplicates the first point: it is built from
   [p0, p0, p1, p2], starts at the pen's width and ends at the width computed
   from the velocity between p0 and p1.
   */
  lemma FirstCurve(cfg: Config, geo: Geometry, pen: Pen, pts: seq<Point>)
    requires pen.lastPoints == [] && |pts| >= 3
    ensures var cs := Feed(cfg, geo, pen, pts).1;
      && |cs| > 0
      && cs[0] == Curve([pts[0], pts[0], pts[1], pts[2]], pen.lastWidth,
                        CurveWidths(cfg, geo, pen, pts[0], pts[1]).0.end)
  {
    var pen1 := AddPoint(cfg, geo, pen, pts[0]).0;
    var pen2 := AddPoint(cfg, geo, pen1, pts[1]).0;
    var rest := pts[1..];
    assert rest[1..] == pts[2..];
    FeedStep(cfg, geo, pen, pts);
    FeedStep(cfg, geo, pen1, rest);
    assert Feed(cfg, geo, pen, pts).1 == Feed(cfg, geo, pen2, pts[2..]).1;
    FeedStep(cfg, geo, pen2, pts[2..]);
    assert pen2.lastPoints == [pts[0], pts[1]];
    assert pen2.lastWidth == pen.lastWidth && pen2.lastVelocity == pen.lastVelocity;
    assert CurveWidths(cfg, geo, pen2, pts[0], pts[1]).0.end == CurveWidths(cfg, geo, pen, pts[0], pts[1]).0.end;
  }

  /**
   Four samples moving at a constant unit velocity with the default widths and
   weight: two curves, the first starting at the mean width 1.5 and ending
   strictly thinner, at 2.5 / 1.7.
   */
  lemma ConstantVelocityScenario(cfg: Config, geo: Geometry, pts: seq<Point>)
    requires cfg.minWidth == 0.5 && cfg.maxWidth == 2.5 && cfg.velocityFilterWeight == 0.7
    requires |pts| == 4 && geo.velocity(pts[1], pts[0]) == 1.0
    ensures var cs := Feed(cfg, geo, Fresh(cfg), pts).1;
      && |cs| == 2
      && cs[0].startWidth == 1.5
      && cs[0].endWidth == 2.5 / 1.7
      && cs[0].endWidth < 1.5
  {
    FeedAfterReset(cfg, geo, pts);
    FirstCurve(cfg, geo, Fresh(cfg), pts);
  }

  /** Every two consecutive points of the sequence are V apart in velocity. */
  predicate SteadyVelocity(geo: Geometry, pts: seq<Point>, V: NonNeg)
  {
    forall i :: 0 <= i < |pts| - 1 ==> geo.velocity(pts[i + 1], pts[i]) == V
  }

  /** The buffer `_addPoint` keeps, followed by the points still to come, is a suffix of everything seen. */
  lemma LastThreeSuffix(buf: seq<Point>, rest: seq<Point>)
    ensures |LastThree(buf)| <= |buf|
    ensures LastThree(buf) + rest == (buf + rest)[|buf| - |LastThree(buf)|..]
  {
  }

  /** A velocity between a and V gives a width between the widths for a and for V. */
  lemma StrokeWidthWithin(cfg: Config, v: NonNeg, a: NonNeg, V: NonNeg)
    requires 0.0 <= cfg.maxWidth && Within(v, a, V)
    ensures Within(StrokeWidth(cfg, v), StrokeWidth(cfg, a), StrokeWidth(cfg, V))
  {
    if a <= V {
      StrokeWidthAntitone(cfg, a, v);
      StrokeWidthAntitone(cfg, v, V);
    } else {
      StrokeWidthAntitone(cfg, V, v);
      StrokeWidthAntitone(cfg, v, a);
    }
  }

  /** A suffix of a sequence of steady velocity is steady too. */
  lemma SteadySuffix(geo: Geometry, all: seq<Point>, j: nat, V: NonNeg)
    requires j <= |all| && SteadyVelocity(geo, all, V)
    ensures SteadyVelocity(geo, all[j..], V)
  {
    var suffix := all[j..];
    assert forall i :: 0 <= i < |suffix| ==> suffix[i] == all[j + i];
  }

  /** After a push the buffer and the points still to come are still steady. */
  lemma SteadyAfterPush(cfg: Config, geo: Geometry, pen: Pen, pts: seq<Point>, V: NonNeg)
    requires |pen.lastPoints| <= 3 && pts != []
    requires SteadyVelocity(geo, pen.lastPoints + pts, V)
    ensures var pen1 := AddPoint(cfg, geo, pen, pts[0]).0;
      SteadyVelocity(geo, pen1.lastPoints + pts[1..], V) && |pen1.lastPoints| <= 3
  {
    var buf := pen.lastPoints + [pts[0]];
    LastThreeSuffix(buf, pts[1..]);
    assert buf + pts[1..] == pen.lastPoints + pts;
    SteadySuffix(geo, pen.lastPoints + pts, |buf| - |LastThree(buf)|, V);
  }

  /** A point pushed at velocity V moves the smoothed velocity toward V; a curve ends at the width for the new velocity. */
  lemma AddPointToward(cfg: Config, geo: Geometry, pen: Pen, pts: seq<Point>, V: NonNeg)
    requires |pen.lastPoints| <= 3 && pts != []
    requires SteadyVelocity(geo, pen.lastPoints + pts, V)
    ensures var (pen1, c) := AddPoint(cfg, geo, pen, pts[0]);
      && Within(pen1.lastVelocity, pen.lastVelocity, V)
      && (c.Some? ==> c.value.endWidth == pen1.lastWidth == StrokeWidth(cfg, pen1.lastVelocity))
      && (c.Some? ==> V - pen1.lastVelocity == (1.0 - cfg.velocityFilterWeight) * (V - pen.lastVelocity))
  {
    var all := pen.lastPoints + pts;
    var (pen1, c) := AddPoint(cfg, geo, pen, pts[0]);
    if c.Some? {
      var w := c.value.window;
      var k := |pen.lastPoints|;
      assert w[1] == all[k - 2] && w[2] == all[k - 1];
      assert geo.velocity(w[2], w[1]) == V;
      SmoothingGap(cfg, geo, pen.lastVelocity, w[1], w[2]);
    }
  }

  /**
   Points arriving at a constant velocity V pull the pen toward V: the
   smoothed velocity ends between where it started and V, the first curve
   ends between the width for the pen's velocity and the width for V, and
   every later curve ends between its start width and the width for V.
   */
  lemma {:induction false} FeedTowardVelocity(cfg: Config, geo: Geometry, pen: Pen, pts: seq<Point>, V: NonNeg)
    requires 0.0 <= cfg.maxWidth && |pen.lastPoints| <= 3
    requires SteadyVelocity(geo, pen.lastPoints + pts, V)
    ensures var (pen', cs) := Feed(cfg, geo, pen, pts);
      && Within(pen'.lastVelocity, pen.lastVelocity, V)
      && (|cs| > 0 ==> Within(cs[0].endWidth, StrokeWidth(cfg, pen.lastVelocity), StrokeWidth(cfg, V)))
      && (forall i :: 1 <= i < |cs| ==> Within(cs[i].endWidth, cs[i].startWidth, StrokeWidth(cfg, V)))
    decreases |pts|
  {
    if pts != [] {
      var (pen1, c) := AddPoint(cfg, geo, pen, pts[0]);
      var (pen2, cs') := Feed(cfg, geo, pen1, pts[1..]);
      AddPointToward(cfg, geo, pen, pts, V);
      SteadyAfterPush(cfg, geo, pen, pts, V);
      FeedStep(cfg, geo, pen, pts);
      FeedTowardVelocity(cfg, geo, pen1, pts[1..], V);
      if c.Some? {
        StrokeWidthWithin(cfg, pen1.lastVelocity, pen.lastVelocity, V);
        if |cs'| > 0 {
          FeedWidthsChain(cfg, geo, pen1, pts[1..]);
        }
      }
    }
  }
}

=== FILE: options.dfy ===
/**
 Constructor options of the signature pad and the configuration they resolve to.
 */
module Options {
  import opened Wrappers

  /** A smoothing weight; the exponential filter is only meaningful in [0, 1]. */
  type Weight = r: real | 0.0 <= r <= 1.0

  /** A `dotSize` a caller can pass: a fixed radius or a zero-argument function evaluated per dot. */
  datatype DotOption = GivenRadius(radius: real) | GivenSize(size: () -> real)

  /**
   The resolved dot size: a fixed radius, a caller's size function, or the
   constructor's default function, which gives the mean of the two widths.
   */
  datatype DotSize = Fixed(radius: real) | Computed(size: () -> real) | MidWidth

  /** The options a caller may pass; `None` is an option that was not given. */
  datatype Options = Options(
    dotSize: Option<DotOption>,
    minWidth: Option<real>,
    maxWidth: Option<real>,
    minDistance: Option<real>,
    backgroundColor: Option<string>,
    penColor: Option<string>,
    throttle: Option<real>,
    velocityFilterWeight: Option<Weight>)

  /** The resolved, fixed configuration of one pad (the pen colour is pad state). */
  datatype Config = Config(
    dotSize: DotSize,
    minWidth: real,
    maxWidth: real,
    minDistance: real,
    backgroundColor: string,
    throttle: real,
    velocityFilterWeight: Weight)

  /** JavaScript `value || fallback` for a number: an absent value or 0 is falsy. */
  function OrNumber(o: Option<real>, fallback: real): real
  {
    match o
    case Some(v) => if v != 0.0 then v else fallback
    case None => fallback
  }

  /** JavaScript `value || fallback` for a string: an absent value or "" is falsy. */
  function OrString(o: Option<string>, fallback: string): string
  {
    match o
    case Some(v) => if v != "" then v else fallback
    case None => fallback
  }

  /** JavaScript `'key' in options ? options.key : fallback`. */
  function IfGiven<T>(o: Option<T>, fallback: T): T
  {
    match o
    case Some(v) => v
    case None => fallback
  }

  /** The colour a new pad starts drawing with: the given one unless it is absent or empty, else black. */
  function InitialPenColor(opts: Options): (c: string)
    ensures opts.penColor.Some? && opts.penColor.value != "" ==> c == opts.penColor.value
    ensures opts.penColor.None? || opts.penColor == Some("") ==> c == "black"
  {
    OrString(opts.penColor, "black")
  }

  /**
   The configuration the constructor derives from the options. `minDistance`
   and `throttle` are taken whenever the key is present, even as 0; the widths,
   the weight, the background and a fixed dot size are taken only when they are
   present and not 0 (or not empty), and otherwise fall back to their defaults.
   */
  function Configure(opts: Options): (cfg: Config)
    ensures opts.minDistance.Some? ==> cfg.minDistance == opts.minDistance.value
    ensures opts.minDistance.None? ==> cfg.minDistance == 5.0
    ensures opts.throttle.Some? ==> cfg.throttle == opts.throttle.value
    ensures opts.throttle.None? ==> cfg.throttle == 16.0
    ensures cfg.minWidth != 0.0 && cfg.maxWidth != 0.0 && cfg.velocityFilterWeight != 0.0
    ensures opts.minWidth.Some? && opts.minWidth.value != 0.0 ==> cfg.minWidth == opts.minWidth.value
    ensures opts.minWidth.None? || opts.minWidth == Some(0.0) ==> cfg.minWidth == 0.5
    ensures opts.maxWidth.Some? && opts.maxWidth.value != 0.0 ==> cfg.maxWidth == opts.maxWidth.value
    ensures opts.maxWidth.None? || opts.maxWidth == Some(0.0) ==> cfg.maxWidth == 2.5
    ensures opts.velocityFilterWeight.Some? && opts.velocityFilterWeight.value != 0.0 ==>
      cfg.velocityFilterWeight == opts.velocityFilterWeight.value
    ensures opts.velocityFilterWeight.None? || opts.velocityFilterWeight == Some(0.0) ==> cfg.velocityFilterWeight == 0.7
    ensures opts.backgroundColor.Some? && opts.backgroundColor.value != "" ==> cfg.backgroundColor == opts.backgroundColor.value
    ensures opts.backgroundColor.None? || opts.backgroundColor == Some("") ==> cfg.backgroundColor == "rgba(0,0,0,0)"
    ensures opts.dotSize.None? || opts.dotSize == Some(GivenRadius(0.0)) ==> cfg.dotSize == MidWidth
    ensures opts.dotSize.Some? && opts.dotSize.value.GivenRadius? && opts.dotSize.value.radius != 0.0 ==>
      cfg.dotSize == Fixed(opts.dotSize.value.radius)
    ensures opts.dotSize.Some? && opts.dotSize.value.GivenSize? ==> cfg.dotSize == Computed(opts.dotSize.value.size)
  {
    Config(
      dotSize := match opts.dotSize
                 case Some(GivenRadius(r)) => if r != 0.0 then Fixed(r) else MidWidth
                 case Some(GivenSize(f)) => Computed(f)
                 case None => MidWidth,
      minWidth := OrNumber(opts.minWidth, 0.5),
      maxWidth := OrNumber(opts.maxWidth, 2.5),
      minDistance := IfGiven(opts.minDistance, 5.0),
      backgroundColor := OrString(opts.backgroundColor, "rgba(0,0,0,0)"),
      throttle := IfGiven(opts.throttle, 16.0),
      velocityFilterWeight := var w := IfGiven(opts.velocityFilterWeight, 0.7); if w != 0.0 then w else 0.7)
  }

  /** The options that spell out every setting of a configuration, and a pen colour. */
  function OptionsOf(cfg: Config, penColor: string): Options
  {
    var dot := match cfg.dotSize
               case Fixed(r) => Some(GivenRadius(r))
               case Computed(f) => Some(GivenSize(f))
               case MidWidth => None;
    Options(dot, Some(cfg.minWidth), Some(cfg.maxWidth), Some(cfg.minDistance),
            Some(cfg.backgroundColor), Some(penColor), Some(cfg.throttle), Some(cfg.velocityFilterWeight))
  }

  /**
   Every configuration whose settings JavaScript does not treat as falsy is
   reproduced by passing its settings explicitly, and so is the pen colour.
   */
  lemma ConfigureRoundTrip(cfg: Config, penColor: string)
    requires cfg.minWidth != 0.0 && cfg.maxWidth != 0.0 && cfg.velocityFilterWeight != 0.0
    requires cfg.backgroundColor != "" && cfg.dotSize != Fixed(0.0) && penColor != ""
    ensures Configure(OptionsOf(cfg, penColor)) == cfg
    ensures InitialPenColor(OptionsOf(cfg, penColor)) == penColor
  {
  }

  /** The radius of a dot: the configured constant, the value of the size function, or by default the mean width. */
  function DotRadius(cfg: Config): real
  {
    match cfg.dotSize
    case Fixed(r) => r
    case Computed(f) => f()
    case MidWidth => (cfg.minWidth + cfg.maxWidth) / 2.0
  }

  /** The width bounds make sense: the floor does not exceed the ceiling, and the ceiling is not negative. */
  predicate WidthBounds(cfg: Config)
  {
    0.0 <= cfg.maxWidth && cfg.minWidth <= cfg.maxWidth
  }
}

=== FILE: pad.dfy ===
/**
 The stroke intake state machine of `SignaturePad`: the point-group store,
 `clear`, `_reset`, `_strokeBegin`, `_strokeUpdate` and `_strokeEnd`.
 Every transition is a pure function returning the new pad and the draw
 events it issues.
 */
module Pad {
  import opened Wrappers
  import opened Basics
  import opened Primitives
  import opened Options
  import opened Curves
  import opened Render

  /** One stroke (or one dot) of the capture history: its colour and raw samples. */
  datatype Group = Group(color: string, points: seq<Point>)

  /** A raw pointer sample; `time` is the clock reading taken when the sample arrives. */
  datatype Sample = Sample(x: real, y: real, time: int)

  /** The mutable part of a pad: pen state, the point-group store, pen colour and the empty flag. */
  datatype Pad = Pad(pen: Pen, data: seq<Group>, penColor: string, isEmpty: bool)

  /** `_createPoint`: the canvas offset is fixed at (0, 0), so the point keeps the sample's coordinates and clock reading. */
  function ToPoint(s: Sample): (p: Point)
    ensures p.x == s.x && p.y == s.y && p.time == s.time
  {
    Point(s.x, s.y, s.time)
  }

  /** `_reset`: restart the pen state for a new stroke; the store, pen colour and empty flag are untouched. */
  function Reset(cfg: Config, st: Pad): (r: Pad)
    ensures r.pen.lastPoints == [] && r.pen.lastVelocity == 0.0
    ensures r.pen.lastWidth == (cfg.minWidth + cfg.maxWidth) / 2.0
    ensures r.data == st.data && r.penColor == st.penColor && r.isEmpty == st.isEmpty
  {
    st.(pen := Fresh(cfg))
  }

  /** `clear`: fill the background, empty the store, reset the pen and mark the pad empty. */
  function Clear(cfg: Config, st: Pad): (r: (Pad, seq<Event>))
    ensures r.0.data == [] && r.0.isEmpty
    ensures r.0.pen.lastPoints == [] && r.0.pen.lastVelocity == 0.0
    ensures r.0.pen == Fresh(cfg) && r.0.penColor == st.penColor
    ensures r.1 == [Background(cfg.backgroundColor)]
  {
    (Reset(cfg, st).(data := [], isEmpty := true), [Background(cfg.backgroundColor)])
  }

  /** The constructor: resolve the options and clear a pad whose fields hold their declared initial values. */
  function Create(opts: Options): (r: (Config, Pad, seq<Event>))
    ensures r.0 == Configure(opts)
    ensures r.1.data == [] && r.1.isEmpty && r.1.pen == Fresh(r.0)
    ensures r.1.penColor == InitialPenColor(opts)
    ensures r.2 == [Background(r.0.backgroundColor)]
  {
    var cfg := Configure(opts);
    var (st, evs) := Clear(cfg, Pad(Pen([], 1.0, 1.0), [], InitialPenColor(opts), false));
    (cfg, st, evs)
  }

  /** The jitter filter: the group already has a point and the new one is within minDistance of it. */
  predicate TooClose(cfg: Config, geo: Geometry, g: Group, p: Point)
  {
    |g.points| > 0 && geo.distance(p, Last(g.points)) <= cfg.minDistance
  }

  /**
   The body of `_strokeUpdate` once the store is known to be non-empty:
   drop a sample too close to the last recorded one; otherwise push it into
   the buffer, draw a dot for a group's first sample or the curve the buffer
   produced, and record the sample in the last group.
   */
  function Intake(cfg: Config, geo: Geometry, st: Pad, s: Sample): (r: (Pad, seq<Event>))
    requires |st.data| > 0
    ensures r.0.isEmpty == (st.isEmpty && !Paints(geo, r.1))
    ensures r.0.penColor == st.penColor && |r.0.data| == |st.data|
    ensures |r.1| <= 1 && CountDots(r.1) + CountCurves(r.1) == |r.1|
  {
    var p := ToPoint(s);
    var n := |st.data|;
    var g := st.data[n - 1];
    if TooClose(cfg, geo, g, p) then
      DrawnIffPaints(geo, st.isEmpty, []);
      (st, [])
    else
      var (pen', curve) := AddPoint(cfg, geo, st.pen, p);
      var evs :=
        if |g.points| == 0 then [Dot(g.color, p, DotRadius(cfg))]
        else if curve.Some? then [CurveDrawn(g.color, curve.value)]
        else [];
      DrawnIffPaints(geo, st.isEmpty, evs);
      var data' := st.data[..n - 1] + [g.(points := g.points + [p])];
      (st.(pen := pen', data := data', isEmpty := Drawn(geo, st.isEmpty, evs)), evs)
  }

  /** `_strokeBegin`: open a new group in the current pen colour, reset the pen, then take the sample. */
  function Begin(cfg: Config, geo: Geometry, st: Pad, s: Sample): (r: (Pad, seq<Event>))
    ensures r.0.isEmpty == (st.isEmpty && !Paints(geo, r.1))
  {
    Intake(cfg, geo, Reset(cfg, st.(data := st.data + [Group(st.penColor, [])])), s)
  }

  /** `_strokeUpdate`: an update on an empty store (after a `clear` mid-stroke) begins a new stroke. */
  function Update(cfg: Config, geo: Geometry, st: Pad, s: Sample): (r: (Pad, seq<Event>))
    ensures r.0.isEmpty == (st.isEmpty && !Paints(geo, r.1))
    ensures r.0.penColor == st.penColor
    ensures |r.1| <= 1
  {
    if |st.data| == 0 then Begin(cfg, geo, st, s) else Intake(cfg, geo, st, s)
  }

  /** `_strokeEnd`: the final sample of a stroke is processed as one more update. */
  function End(cfg: Config, geo: Geometry, st: Pad, s: Sample): (r: (Pad, seq<Event>))
    ensures r.0.isEmpty == (st.isEmpty && !Paints(geo, r.1))
    ensures r.0.penColor == st.penColor
    ensures |r.1| <= 1
    ensures |st.data| > 0 ==> |r.0.data| == |st.data|
    ensures |st.data| == 0 ==> |r.0.data| == 1
  {
    Update(cfg, geo, st, s)
  }

  /**
   The jitter filter, both ways: on a non-empty store an update leaves the
   pad unchanged and draws nothing exactly when the sample is within
   minDistance of the last recorded point of the last group.
   */
  lemma UpdateFilter(cfg: Config, geo: Geometry, st: Pad, s: Sample)
    requires |st.data| > 0
    ensures Update(cfg, geo, st, s) == (st, []) <==> TooClose(cfg, geo, Last(st.data), ToPoint(s))
  {
  }

  /**
   An accepted sample on a non-empty store: it goes through the buffer, is
   appended to the last group only, and draws a dot if it is the group's
   first point, else the curve the buffer produced (present exactly when the
   buffer already held two points).
   */
  lemma UpdateRecords(cfg: Config, geo: Geometry, st: Pad, s: Sample)
    requires |st.data| > 0 && !TooClose(cfg, geo, Last(st.data), ToPoint(s))
    ensures var (st', evs) := Update(cfg, geo, st, s);
      var n := |st.data|;
      var g := st.data[n - 1];
      var p := ToPoint(s);
      && st'.pen == AddPoint(cfg, geo, st.pen, p).0
      && |st'.data| == n
      && (forall i :: 0 <= i < n - 1 ==> st'.data[i] == st.data[i])
      && st'.data[n - 1] == Group(g.color, g.points + [p])
      && (|g.points| == 0 ==> evs == [Dot(g.color, p, DotRadius(cfg))])
      && (|g.points| > 0 ==>
            && CountDots(evs) == 0
            && (|evs| == 1 <==> |st.pen.lastPoints| >= 2)
            && (forall e :: e in evs ==> e.CurveDrawn? && e.color == g.color)
            && evs == CurveEvents(g.color, Present(AddPoint(cfg, geo, st.pen, p).1)))
  {
  }

  /**
   `_strokeBegin`: the store gains one group in the pen colour holding the
   sample, exactly one dot is drawn and no curve, and the pen restarts from
   the reset state with the sample buffered.
   */
  lemma BeginStartsGroup(cfg: Config, geo: Geometry, st: Pad, s: Sample)
    ensures var (st', evs) := Begin(cfg, geo, st, s);
      && st'.data == st.data + [Group(st.penColor, [ToPoint(s)])]
      && evs == [Dot(st.penColor, ToPoint(s), DotRadius(cfg))]
      && st'.pen.lastPoints == [ToPoint(s)]
      && st'.pen.lastWidth == Fresh(cfg).lastWidth
      && st'.pen.lastVelocity == 0.0
      && !st'.isEmpty
  {
    var st1 := Reset(cfg, st.(data := st.data + [Group(st.penColor, [])]));
    var g := Last(st1.data);
    assert !TooClose(cfg, geo, g, ToPoint(s));
    assert st1.data[..|st1.data| - 1] == st.data;
    assert g.(points := g.points + [ToPoint(s)]) == Group(st.penColor, [ToPoint(s)]);
  }

  /** After `clear`, a stray update starts a fresh stroke: one group holding the sample and one dot. */
  lemma UpdateAfterClear(cfg: Config, geo: Geometry, st: Pad, s: Sample)
    ensures var (st', evs) := Update(cfg, geo, Clear(cfg, st).0, s);
      && st'.data == [Group(st.penColor, [ToPoint(s)])]
      && evs == [Dot(st.penColor, ToPoint(s), DotRadius(cfg))]
  {
    BeginStartsGroup(cfg, geo, Clear(cfg, st).0, s);
  }

  /** The invariant every reachable pad keeps: a short buffer, a width within bounds, no empty group. */
  predicate Sound(cfg: Config, st: Pad)
  {
    && |st.pen.lastPoints| <= 3
    && cfg.minWidth <= st.pen.lastWidth <= cfg.maxWidth
    && (forall i :: 0 <= i < |st.data| ==> |st.data[i].points| > 0)
  }

  /** A freshly constructed pad is sound when its width bounds make sense. */
  lemma CreateSound(opts: Options)
    requires WidthBounds(Configure(opts))
    ensures Sound(Create(opts).0, Create(opts).1)
  {
  }

  /** `clear`, begin and update all keep the invariant. */
  lemma UpdateKeepsSound(cfg: Config, geo: Geometry, st: Pad, s: Sample)
    requires WidthBounds(cfg) && Sound(cfg, st)
    ensures Sound(cfg, Clear(cfg, st).0)
    ensures Sound(cfg, Begin(cfg, geo, st, s).0)
    ensures Sound(cfg, Update(cfg, geo, st, s).0)
  {
    BeginStartsGroup(cfg, geo, st, s);
    var st' := Begin(cfg, geo, st, s).0;
    assert forall i :: 0 <= i < |st.data| ==> st'.data[i] == st.data[i];
    if |st.data| > 0 && !TooClose(cfg, geo, Last(st.data), ToPoint(s)) {
      UpdateRecords(cfg, geo, st, s);
    }
  }

  /** A sequence of updates, the last one being the stroke's end. */
  function Updates(cfg: Config, geo: Geometry, st: Pad, ss: seq<Sample>): (Pad, seq<Event>)
    decreases |ss|
  {
    if ss == [] then (st, [])
    else
      var (st1, e1) := Update(cfg, geo, st, ss[0]);
      var (st2, e2) := Updates(cfg, geo, st1, ss[1..]);
      (st2, e1 + e2)
  }

  /** A whole stroke: a begin on the first sample, then the remaining samples as updates. */
  function Stroke(cfg: Config, geo: Geometry, st: Pad, first: Sample, rest: seq<Sample>): (Pad, seq<Event>)
  {
    var (st1, e1) := Begin(cfg, geo, st, first);
    var (st2, e2) := Updates(cfg, geo, st1, rest);
    (st2, e1 + e2)
  }

  /**
   The reference jitter filter: scan the samples, keeping each one that is
   farther than minDistance from the last kept point.
   */
  function Retained(cfg: Config, geo: Geometry, kept: seq<Point>, ss: seq<Sample>): (r: seq<Point>)
    requires |kept| > 0
    ensures |r| >= |kept| && r[..|kept|] == kept
    decreases |ss|
  {
    if ss == [] then kept
    else
      var p := ToPoint(ss[0]);
      var next := if geo.distance(p, Last(kept)) <= cfg.minDistance then kept else kept + [p];
      Retained(cfg, geo, next, ss[1..])
  }

  /** One step of `Updates`: the first sample is an update, the rest follow from the new pad. */
  lemma UpdatesStep(cfg: Config, geo: Geometry, st: Pad, ss: seq<Sample>)
    requires ss != []
    ensures var u := Update(cfg, geo, st, ss[0]);
      var rest := Updates(cfg, geo, u.0, ss[1..]);
      Updates(cfg, geo, st, ss) == (rest.0, u.1 + rest.1)
  {
  }

  /** What one accepted sample inside a stroke does to the store, the buffer and the event counts. */
  lemma AcceptStep(cfg: Config, geo: Geometry, st: Pad, s: Sample)
    requires |st.data| > 0 && |Last(st.data).points| > 0
    requires |st.pen.lastPoints| == Min(|Last(st.data).points|, 3)
    requires !TooClose(cfg, geo, Last(st.data), ToPoint(s))
    ensures var (st1, e1) := Update(cfg, geo, st, s);
      var g := Last(st.data);
      && st1.data == st.data[..|st.data| - 1] + [Group(g.color, g.points + [ToPoint(s)])]
      && |st1.pen.lastPoints| == Min(|g.points| + 1, 3)
      && CountDots(e1) == 0
      && CountCurves(e1) == (if |g.points| >= 2 then 1 else 0)
      && st1.penColor == st.penColor
  {
    UpdateRecords(cfg, geo, st, s);
    var (st1, e1) := Update(cfg, geo, st, s);
    var n := |st.data|;
    assert st1.data == st1.data[..n - 1] + [st1.data[n - 1]];
    assert st1.data[..n - 1] == st.data[..n - 1];
  }

  /** One step of the reference filter. */
  lemma RetainedStep(cfg: Config, geo: Geometry, kept: seq<Point>, ss: seq<Sample>)
    requires |kept| > 0 && ss != []
    ensures var p := ToPoint(ss[0]);
      Retained(cfg, geo, kept, ss)
      == Retained(cfg, geo, if geo.distance(p, Last(kept)) <= cfg.minDistance then kept else kept + [p], ss[1..])
  {
  }

  /** What the updates on the samples do to the store, the buffer and the event counts of a stroke in progress. */
  predicate InStroke(cfg: Config, geo: Geometry, st: Pad, ss: seq<Sample>)
    requires |st.data| > 0 && |Last(st.data).points| > 0
  {
    var r := Updates(cfg, geo, st, ss);
    var g := Last(st.data);
    var kept := Retained(cfg, geo, g.points, ss);
    && r.0.data == st.data[..|st.data| - 1] + [Group(g.color, kept)]
    && CountDots(r.1) == 0
    && CountCurves(r.1) == Max(0, |kept| - 2) - Max(0, |g.points| - 2)
    && |r.0.pen.lastPoints| == Min(|kept|, 3)
    && r.0.penColor == st.penColor
  }

  /** An accepted first sample extends the stroke facts for the remaining samples to all of them. */
  lemma AcceptInStroke(cfg: Config, geo: Geometry, st: Pad, ss: seq<Sample>)
    requires |st.data| > 0 && |Last(st.data).points| > 0 && ss != []
    requires |st.pen.lastPoints| == Min(|Last(st.data).points|, 3)
    requires !TooClose(cfg, geo, Last(st.data), ToPoint(ss[0]))
    requires var u := Update(cfg, geo, st, ss[0]).0;
      |u.data| > 0 && |Last(u.data).points| > 0 && InStroke(cfg, geo, u, ss[1..])
    ensures InStroke(cfg, geo, st, ss)
  {
    var n := |st.data|;
    UpdatesStep(cfg, geo, st, ss);
    RetainedStep(cfg, geo, Last(st.data).points, ss);
    AcceptStep(cfg, geo, st, ss[0]);
    var u := Update(cfg, geo, st, ss[0]);
    var rest := Updates(cfg, geo, u.0, ss[1..]);
    CountAppend(u.1, rest.1);
    assert rest.0.data[..n - 1] == u.0.data[..n - 1];
  }

  /** A filtered first sample changes nothing, so the stroke facts for the rest carry over. */
  lemma DropInStroke(cfg: Config, geo: Geometry, st: Pad, ss: seq<Sample>)
    requires |st.data| > 0 && |Last(st.data).points| > 0 && ss != []
    requires TooClose(cfg, geo, Last(st.data), ToPoint(ss[0]))
    requires InStroke(cfg, geo, st, ss[1..])
    ensures InStroke(cfg, geo, st, ss)
  {
    UpdatesStep(cfg, geo, st, ss);
    RetainedStep(cfg, geo, Last(st.data).points, ss);
    UpdateFilter(cfg, geo, st, ss[0]);
    CountAppend([], Updates(cfg, geo, st, ss[1..]).1);
  }

  /**
   Updates inside a stroke record exactly the retained samples in the last
   group, draw no dot, and draw one curve per retained sample from the third
   on; the buffer keeps the last min(n, 3) retained samples.
   */
  lemma {:induction false} UpdatesInStroke(cfg: Config, geo: Geometry, st: Pad, ss: seq<Sample>)
    requires |st.data| > 0 && |Last(st.data).points| > 0
    requires |st.pen.lastPoints| == Min(|Last(st.data).points|, 3)
    ensures var r := Updates(cfg, geo, st, ss);
      var g := Last(st.data);
      var kept := Retained(cfg, geo, g.points, ss);
      && r.0.data == st.data[..|st.data| - 1] + [Group(g.color, kept)]
      && CountDots(r.1) == 0
      && CountCurves(r.1) == Max(0, |kept| - 2) - Max(0, |g.points| - 2)
      && |r.0.pen.lastPoints| == Min(|kept|, 3)
      && r.0.penColor == st.penColor
    decreases |ss|
  {
    var g := Last(st.data);
    if ss == [] {
      assert st.data == st.data[..|st.data| - 1] + [Group(g.color, g.points)];
    } else if TooClose(cfg, geo, g, ToPoint(ss[0])) {
      UpdatesInStroke(cfg, geo, st, ss[1..]);
      DropInStroke(cfg, geo, st, ss);
    } else {
      AcceptStep(cfg, geo, st, ss[0]);
      UpdateFeedStep(cfg, geo, st, ss[0]);
      var u := Update(cfg, geo, st, ss[0]);
      UpdatesInStroke(cfg, geo, u.0, ss[1..]);
      AcceptInStroke(cfg, geo, st, ss);
    }
  }

  /**
   A stroke appends one group in the pen colour holding exactly the samples
   the jitter filter retains; it draws one dot (its first event) and
   max(0, n - 2) curves for n retained samples.
   */
  lemma StrokeShape(cfg: Config, geo: Geometry, st: Pad, first: Sample, rest: seq<Sample>)
    ensures var (st', evs) := Stroke(cfg, geo, st, first, rest);
      var kept := Retained(cfg, geo, [ToPoint(first)], rest);
      && st'.data == st.data + [Group(st.penColor, kept)]
      && |evs| > 0 && evs[0] == Dot(st.penColor, ToPoint(first), DotRadius(cfg))
      && CountDots(evs) == 1
      && CountCurves(evs) == Max(0, |kept| - 2)
  {
    BeginStartsGroup(cfg, geo, st, first);
    var (st1, e1) := Begin(cfg, geo, st, first);
    UpdatesInStroke(cfg, geo, st1, rest);
    var (st2, e2) := Updates(cfg, geo, st1, rest);
    CountAppend(e1, e2);
    assert st1.data[..|st1.data| - 1] == st.data;
  }

  /**
   With minDistance 5 and Euclidean distances, the samples (0,0), (1,0),
   (2,0), (10,0) keep only (0,0) and (10,0): one dot and no curve.
   */
  lemma JitterScenario(cfg: Config, geo: Geometry, st: Pad)
    requires cfg.minDistance == 5.0
    requires geo.distance(Point(1.0, 0.0, 1), Point(0.0, 0.0, 0)) == 1.0
    requires geo.distance(Point(2.0, 0.0, 2), Point(0.0, 0.0, 0)) == 2.0
    requires geo.distance(Point(10.0, 0.0, 3), Point(0.0, 0.0, 0)) == 10.0
    ensures var (st', evs) := Stroke(cfg, geo, st, Sample(0.0, 0.0, 0),
                                     [Sample(1.0, 0.0, 1), Sample(2.0, 0.0, 2), Sample(10.0, 0.0, 3)]);
      && st'.data == st.data + [Group(st.penColor, [Point(0.0, 0.0, 0), Point(10.0, 0.0, 3)])]
      && CountDots(evs) == 1 && CountCurves(evs) == 0
  {
    var ss := [Sample(1.0, 0.0, 1), Sample(2.0, 0.0, 2), Sample(10.0, 0.0, 3)];
    StrokeShape(cfg, geo, st, Sample(0.0, 0.0, 0), ss);
    var k0 := [Point(0.0, 0.0, 0)];
    assert ss[1..][1..] == [Sample(10.0, 0.0, 3)];
    assert Retained(cfg, geo, k0, ss) == Retained(cfg, geo, k0, ss[1..]);
    assert Retained(cfg, geo, k0, ss[1..]) == Retained(cfg, geo, k0, ss[1..][1..]);
    var k1 := k0 + [Point(10.0, 0.0, 3)];
    assert Retained(cfg, geo, k0, ss[1..][1..]) == Retained(cfg, geo, k1, []);
    assert [ToPoint(Sample(0.0, 0.0, 0))] == k0;
    assert Retained(cfg, geo, k0, ss) == [Point(0.0, 0.0, 0), Point(10.0, 0.0, 3)];
  }

  /** One update inside a stroke, in terms of `_addPoint`: the pen it leaves and the curve events it draws. */
  lemma UpdateFeedStep(cfg: Config, geo: Geometry, st: Pad, s: Sample)
    requires |st.data| > 0 && |Last(st.data).points| > 0
    ensures var (st1, e1) := Update(cfg, geo, st, s);
      var g := Last(st.data);
      var p := ToPoint(s);
      && |st1.data| > 0
      && (TooClose(cfg, geo, g, p) ==> st1 == st && e1 == [])
      && (!TooClose(cfg, geo, g, p) ==>
            && Last(st1.data) == Group(g.color, g.points + [p])
            && st1.pen == AddPoint(cfg, geo, st.pen, p).0
            && e1 == CurveEvents(g.color, Present(AddPoint(cfg, geo, st.pen, p).1)))
  {
    if TooClose(cfg, geo, Last(st.data), ToPoint(s)) {
      UpdateFilter(cfg, geo, st, s);
    } else {
      UpdateRecords(cfg, geo, st, s);
    }
  }

  /**
   The updates on the samples draw exactly the curves that feeding the newly
   retained samples through `_addPoint` yields, in the last group's colour,
   and leave the pen where that feed leaves it.
   */
  predicate FeedMatches(cfg: Config, geo: Geometry, st: Pad, ss: seq<Sample>)
    requires |st.data| > 0 && |Last(st.data).points| > 0
  {
    var r := Updates(cfg, geo, st, ss);
    var g := Last(st.data);
    var kept := Retained(cfg, geo, g.points, ss);
    var f := Feed(cfg, geo, st.pen, kept[|g.points|..]);
    r.1 == CurveEvents(g.color, f.1) && r.0.pen == f.0
  }

  /** An accepted first sample extends the correspondence for the remaining samples to all of them. */
  lemma AcceptFeed(cfg: Config, geo: Geometry, st: Pad, ss: seq<Sample>)
    requires |st.data| > 0 && |Last(st.data).points| > 0 && ss != []
    requires !TooClose(cfg, geo, Last(st.data), ToPoint(ss[0]))
    requires var u := Update(cfg, geo, st, ss[0]).0;
      |u.data| > 0 && |Last(u.data).points| > 0 && FeedMatches(cfg, geo, u, ss[1..])
    ensures FeedMatches(cfg, geo, st, ss)
  {
    var g := Last(st.data);
    var p := ToPoint(ss[0]);
    UpdatesStep(cfg, geo, st, ss);
    RetainedStep(cfg, geo, g.points, ss);
    UpdateFeedStep(cfg, geo, st, ss[0]);
    var kept := Retained(cfg, geo, g.points, ss);
    var K := kept[|g.points|..];
    assert kept == Retained(cfg, geo, g.points + [p], ss[1..]);
    assert kept[..|g.points| + 1] == g.points + [p];
    assert K[0] == p && K[1..] == kept[|g.points| + 1..];
    FeedStep(cfg, geo, st.pen, K);
    var a := AddPoint(cfg, geo, st.pen, p);
    CurveEventsAppend(g.color, Present(a.1), Feed(cfg, geo, a.0, K[1..]).1);
  }

  /** A filtered first sample changes nothing, so the correspondence for the rest carries over. */
  lemma DropFeed(cfg: Config, geo: Geometry, st: Pad, ss: seq<Sample>)
    requires |st.data| > 0 && |Last(st.data).points| > 0 && ss != []
    requires TooClose(cfg, geo, Last(st.data), ToPoint(ss[0]))
    requires FeedMatches(cfg, geo, st, ss[1..])
    ensures FeedMatches(cfg, geo, st, ss)
  {
    UpdatesStep(cfg, geo, st, ss);
    RetainedStep(cfg, geo, Last(st.data).points, ss);
    UpdateFilter(cfg, geo, st, ss[0]);
    var rest := Updates(cfg, geo, st, ss[1..]);
    assert Updates(cfg, geo, st, ss) == (rest.0, [] + rest.1);
    assert [] + rest.1 == rest.1;
  }

  /** Updates inside a stroke draw the curves `_addPoint` yields on the retained samples. */
  lemma {:induction false} UpdatesFeed(cfg: Config, geo: Geometry, st: Pad, ss: seq<Sample>)
    requires |st.data| > 0 && |Last(st.data).points| > 0
    ensures FeedMatches(cfg, geo, st, ss)
    decreases |ss|
  {
    var g := Last(st.data);
    if ss == [] {
      assert Retained(cfg, geo, g.points, ss)[|g.points|..] == [];
    } else {
      UpdateFeedStep(cfg, geo, st, ss[0]);
      if TooClose(cfg, geo, g, ToPoint(ss[0])) {
        UpdatesFeed(cfg, geo, st, ss[1..]);
        DropFeed(cfg, geo, st, ss);
      } else {
        var u := Update(cfg, geo, st, ss[0]);
        UpdatesFeed(cfg, geo, u.0, ss[1..]);
        AcceptFeed(cfg, geo, st, ss);
      }
    }
  }
}

=== FILE: primitives.dfy ===
/**
 Geometric primitives the stroke engine consumes.

 `Point` and `Bezier` are defined in files that are not part of this model
 (`./point`, `./bezier`). Their operations are therefore supplied as a
 `Geometry` record of function values: the engine may call them, but nothing
 is assumed about them beyond their results being non-negative reals.
 */
module Primitives {

  /** A non-negative real: distances, velocities and arc lengths. */
  type NonNeg = r: real | r >= 0.0

  /** A pointer sample: coordinates in surface pixels and a millisecond time stamp. */
  datatype Point = Point(x: real, y: real, time: int)

  /** The cubic Bezier geometry that `Bezier.fromPoints` derives from a 4-point window. */
  datatype Shape = Shape(start: Point, control1: Point, control2: Point, end: Point)

  /**
   A Bezier curve as the engine builds it: the window of points handed to
   `Bezier.fromPoints` together with the start and end stroke widths.
   `fromPoints` is deterministic, so these inputs identify the curve.
   */
  datatype Curve = Curve(window: seq<Point>, startWidth: real, endWidth: real)

  /**
   The helpers the engine calls but whose code is not modelled:
   - distance(p, q) is `p.distanceTo(q)`;
   - velocity(p, q) is `p.velocityFrom(q)`;
   - shape(w) is the start, control and end points `Bezier.fromPoints(w, _)` computes;
   - length(s) is `Bezier.length()` of that shape.
   */
  datatype Geometry = Geometry(
    distance: (Point, Point) -> NonNeg,
    velocity: (Point, Point) -> NonNeg,
    shape: seq<Point> -> Shape,
    length: Shape -> NonNeg)
}

=== FILE: render.dfy ===
/**
 The drawing side of the pad: the abstract draw events the engine emits,
 the per-step sampling of `_drawCurve`, and the `isEmpty` flag that
 `_drawCurveSegment` clears.
 */
module Render {
  import opened Basics
  import opened Primitives
  import opened Options

  /** An abstract canvas operation: a background fill, a dot, or a curve. */
  datatype Event =
    | Background(color: string)
    | Dot(color: string, point: Point, radius: real)
    | CurveDrawn(color: string, curve: Curve)

  /** One disc `_drawCurve` paints: its centre, curve parameter and radius. */
  datatype Segment = Segment(x: real, y: real, t: real, width: real)

  /** The number of discs `_drawCurve` paints: twice the floor of the curve's length. */
  function Steps(geo: Geometry, c: Curve): (n: nat)
    ensures n % 2 == 0
    ensures n as real <= 2.0 * geo.length(geo.shape(c.window)) < n as real + 2.0
  {
    var len := geo.length(geo.shape(c.window));
    2 * len.Floor
  }

  /** One coordinate of a cubic Bezier at parameter t, in the Bernstein basis. */
  function Bernstein(a: real, b: real, c: real, d: real, t: real): real
  {
    var u := 1.0 - t;
    u * u * u * a + 3.0 * u * u * t * b + 3.0 * u * t * t * c + t * t * t * d
  }

  /** The disc painted at step i of n: width interpolated by t cubed, capped at maxWidth. */
  function SegmentAt(cfg: Config, sh: Shape, c: Curve, i: nat, n: nat): Segment
    requires i < n
  {
    var t := i as real / n as real;
    Segment(
      Bernstein(sh.start.x, sh.control1.x, sh.control2.x, sh.end.x, t),
      Bernstein(sh.start.y, sh.control1.y, sh.control2.y, sh.end.y, t),
      t, SegmentWidth(cfg, c, t))
  }

  /** The disc radius at parameter t: the widths interpolated by t cubed, capped at maxWidth. */
  function SegmentWidth(cfg: Config, c: Curve, t: real): real
  {
    MinR(c.startWidth + t * t * t * (c.endWidth - c.startWidth), cfg.maxWidth)
  }

  lemma SegmentWidthBounds(cfg: Config, c: Curve, t: real)
    requires 0.0 <= t < 1.0
    ensures SegmentWidth(cfg, c, t) <= cfg.maxWidth
    ensures MinR(MinR(c.startWidth, c.endWidth), cfg.maxWidth) <= SegmentWidth(cfg, c, t) <= MaxR(c.startWidth, c.endWidth)
  {
    var l := t * t * t;
    CubeBelowOne(t);
    Between(c.startWidth, c.endWidth, l);
    assert SegmentWidth(cfg, c, t) == MinR(c.startWidth + l * (c.endWidth - c.startWidth), cfg.maxWidth);
  }

  lemma CubeBelowOne(t: real)
    requires 0.0 <= t < 1.0
    ensures 0.0 <= t * t * t < 1.0
  {
    assert t * t <= t;
    assert t * t * t <= t * t;
  }

  lemma Between(a: real, b: real, l: real)
    requires 0.0 <= l <= 1.0
    ensures MinR(a, b) <= a + l * (b - a) <= MaxR(a, b)
  {
    var d := b - a;
    assert (1.0 - l) * d == d - l * d;
    if a <= b {
      MulNonNeg(l, d);
      MulNonNeg(1.0 - l, d);
    } else {
      MulNonNeg(l, -d);
      MulNonNeg(1.0 - l, -d);
      assert l * (-d) == -(l * d);
      assert (1.0 - l) * (-d) == -((1.0 - l) * d);
    }
  }

  lemma StepParameter(i: nat, n: nat)
    requires i < n
    ensures 0.0 <= i as real / n as real < 1.0
  {
    var t := i as real / n as real;
    assert t * n as real == i as real;
  }

  /** What each painted disc satisfies: t in [0, 1), the radius between the end widths or the cap, the first disc on the start point. */
  lemma SegmentFacts(cfg: Config, sh: Shape, c: Curve, i: nat, n: nat)
    requires i < n
    ensures var s := SegmentAt(cfg, sh, c, i, n);
      && s.t == i as real / n as real
      && 0.0 <= s.t < 1.0
      && s.width <= cfg.maxWidth
      && MinR(MinR(c.startWidth, c.endWidth), cfg.maxWidth) <= s.width <= MaxR(c.startWidth, c.endWidth)
      && (i == 0 ==> s.x == sh.start.x && s.y == sh.start.y && s.width == MinR(c.startWidth, cfg.maxWidth))
  {
    var t := i as real / n as real;
    StepParameter(i, n);
    SegmentWidthBounds(cfg, c, t);
    if i == 0 {
      assert t == 0.0;
      assert Bernstein(sh.start.x, sh.control1.x, sh.control2.x, sh.end.x, t) == sh.start.x;
      assert Bernstein(sh.start.y, sh.control1.y, sh.control2.y, sh.end.y, t) == sh.start.y;
    }
  }

  /**
   `_drawCurve`: paint Steps discs at t = i / Steps for i = 0 .. Steps - 1.
   Every t lies in [0, 1), every radius is at most maxWidth and lies between
   the curve's start and end widths (or the cap), and the first disc sits on
   the curve's start point.
   */
  method DrawCurve(cfg: Config, geo: Geometry, c: Curve) returns (segs: seq<Segment>)
    ensures |segs| == Steps(geo, c)
    ensures forall i :: 0 <= i < |segs| ==> segs[i] == SegmentAt(cfg, geo.shape(c.window), c, i, |segs|)
    ensures forall i :: 0 <= i < |segs| ==>
      && segs[i].t == i as real / |segs| as real
      && 0.0 <= segs[i].t < 1.0
    ensures forall i :: 0 <= i < |segs| ==>
      && segs[i].width <= cfg.maxWidth
      && MinR(MinR(c.startWidth, c.endWidth), cfg.maxWidth) <= segs[i].width <= MaxR(c.startWidth, c.endWidth)
    ensures |segs| > 0 ==>
      var sh := geo.shape(c.window);
      segs[0].x == sh.start.x && segs[0].y == sh.start.y && segs[0].width == MinR(c.startWidth, cfg.maxWidth)
  {
    var n := Steps(geo, c);
    var sh := geo.shape(c.window);
    segs := [];
    var i := 0;
    while i < n
      invariant 0 <= i <= n
      invariant |segs| == i
      invariant forall k :: 0 <= k < i ==> segs[k] == SegmentAt(cfg, sh, c, k, n)
      invariant forall k :: 0 <= k < i ==>
        && segs[k].t == k as real / n as real
        && 0.0 <= segs[k].t < 1.0
        && segs[k].width <= cfg.maxWidth
        && MinR(MinR(c.startWidth, c.endWidth), cfg.maxWidth) <= segs[k].width <= MaxR(c.startWidth, c.endWidth)
      invariant i > 0 ==> segs[0].x == sh.start.x && segs[0].y == sh.start.y && segs[0].width == MinR(c.startWidth, cfg.maxWidth)
    {
      var s := SegmentAt(cfg, sh, c, i, n);
      SegmentFacts(cfg, sh, c, i, n);
      segs := segs + [s];
      i := i + 1;
    }
  }

  /** The effect of one event on `isEmpty`: only painting a disc clears it. */
  predicate Marks(geo: Geometry, e: Event)
  {
    match e
    case Background(_) => false
    case Dot(_, _, _) => true
    case CurveDrawn(_, c) => Steps(geo, c) > 0
  }

  /** `isEmpty` after drawing the events in order, one event at a time. */
  function Drawn(geo: Geometry, isEmpty: bool, evs: seq<Event>): bool
    decreases |evs|
  {
    if evs == [] then isEmpty
    else Drawn(geo, isEmpty && !Marks(geo, evs[0]), evs[1..])
  }

  /** Some event of the list paints at least one disc. */
  predicate Paints(geo: Geometry, evs: seq<Event>)
  {
    exists i :: 0 <= i < |evs| && Marks(geo, evs[i])
  }

  /** The pad stays empty through a list of events exactly when none of them paints a disc. */
  lemma {:induction false} DrawnIffPaints(geo: Geometry, isEmpty: bool, evs: seq<Event>)
    ensures Drawn(geo, isEmpty, evs) == (isEmpty && !Paints(geo, evs))
    decreases |evs|
  {
    if evs != [] {
      DrawnIffPaints(geo, isEmpty && !Marks(geo, evs[0]), evs[1..]);
      if Paints(geo, evs[1..]) {
        var i :| 0 <= i < |evs[1..]| && Marks(geo, evs[1..][i]);
        assert Marks(geo, evs[i + 1]);
      }
      if Paints(geo, evs) && !Marks(geo, evs[0]) {
        var i :| 0 <= i < |evs| && Marks(geo, evs[i]);
        assert evs[1..][i - 1] == evs[i];
      }
    }
  }

  /** The curve events for a list of curves, all in one colour. */
  function CurveEvents(color: string, cs: seq<Curve>): (evs: seq<Event>)
    ensures |evs| == |cs|
    ensures forall i :: 0 <= i < |cs| ==> evs[i] == CurveDrawn(color, cs[i])
  {
    seq(|cs|, i requires 0 <= i < |cs| => CurveDrawn(color, cs[i]))
  }

  lemma {:induction false} CurveEventsCount(color: string, cs: seq<Curve>)
    ensures CountDots(CurveEvents(color, cs)) == 0
    ensures CountCurves(CurveEvents(color, cs)) == |cs|
    decreases |cs|
  {
    if cs != [] {
      CurveEventsCount(color, cs[1..]);
      assert CurveEvents(color, cs)[1..] == CurveEvents(color, cs[1..]);
    }
  }

  /** Drawing two lists of curves in one colour is drawing the first list, then the second. */
  lemma CurveEventsAppend(color: string, a: seq<Curve>, b: seq<Curve>)
    ensures CurveEvents(color, a + b) == CurveEvents(color, a) + CurveEvents(color, b)
  {
  }

  /** The number of dots among the events. */
  function CountDots(evs: seq<Event>): nat
    decreases |evs|
  {
    if evs == [] then 0 else (if evs[0].Dot? then 1 else 0) + CountDots(evs[1..])
  }

  /** The number of curves among the events. */
  function CountCurves(evs: seq<Event>): nat
    decreases |evs|
  {
    if evs == [] then 0 else (if evs[0].CurveDrawn? then 1 else 0) + CountCurves(evs[1..])
  }

  /** Counting distributes over concatenation of event lists. */
  lemma {:induction false} CountAppend(a: seq<Event>, b: seq<Event>)
    ensures CountDots(a + b) == CountDots(a) + CountDots(b)
    ensures CountCurves(a + b) == CountCurves(a) + CountCurves(b)
    decreases |a|
  {
    if a != [] {
      CountAppend(a[1..], b);
      assert (a + b)[1..] == a[1..] + b;
    } else {
      assert a + b == b;
    }
  }

  /** A list of events paints iff one of its parts does. */
  lemma PaintsAppend(geo: Geometry, a: seq<Event>, b: seq<Event>)
    ensures Paints(geo, a + b) <==> Paints(geo, a) || Paints(geo, b)
  {
    if Paints(geo, a + b) {
      var i :| 0 <= i < |a + b| && Marks(geo, (a + b)[i]);
      if i >= |a| {
        assert b[i - |a|] == (a + b)[i];
      }
    }
    if Paints(geo, a) {
      var i :| 0 <= i < |a| && Marks(geo, a[i]);
      assert (a + b)[i] == a[i];
    }
    if Paints(geo, b) {
      var i :| 0 <= i < |b| && Marks(geo, b[i]);
      assert (a + b)[|a| + i] == b[i];
    }
  }
}

=== FILE: replay.dfy ===
/**
 Replay and export of the point-group store (`fromData`, `_fromData`, `toData`).
 */
module Replay {
  import opened Wrappers
  import opened Basics
  import opened Primitives
  import opened Options
  import opened Curves
  import opened Render
  import opened Pad

  /**
   Replaying a group without points reads `points[0]` as undefined and the
   dot drawing then fails; the model reports the index of that group.
   */
  datatype ReplayError = EmptyGroup(index: nat)

  /**
   One iteration of `_fromData`: a group of several points takes the pen
   colour, resets the pen and feeds every point through the buffer, drawing
   each curve it yields; any other group resets the pen and draws a dot at
   its first point.
   */
  function ReplayGroup(cfg: Config, geo: Geometry, st: Pad, g: Group, index: nat): (r: Result<(Pad, seq<Event>), ReplayError>)
    ensures r.Failure? <==> |g.points| == 0
    ensures r.Failure? ==> r.error == EmptyGroup(index)
    ensures r.Success? ==>
      && r.value.0.data == st.data
      && r.value.0.isEmpty == (st.isEmpty && !Paints(geo, r.value.1))
      && |r.value.0.pen.lastPoints| <= 3
    ensures |g.points| == 1 ==>
      && r.value.1 == [Dot(g.color, g.points[0], DotRadius(cfg))]
      && r.value.0.penColor == st.penColor
      && r.value.0.pen == Fresh(cfg)
    ensures |g.points| > 1 ==>
      && r.value.0.pen == Feed(cfg, geo, Fresh(cfg), g.points).0
      && r.value.1 == CurveEvents(g.color, Feed(cfg, geo, Fresh(cfg), g.points).1)
      && r.value.0.penColor == g.color
      && CountDots(r.value.1) == 0
      && CountCurves(r.value.1) == |g.points| - 2
      && (forall e :: e in r.value.1 ==> e.CurveDrawn? && e.color == g.color)
  {
    if |g.points| > 1 then
      var (pen', cs) := Feed(cfg, geo, Fresh(cfg), g.points);
      FeedAfterReset(cfg, geo, g.points);
      var evs := CurveEvents(g.color, cs);
      CurveEventsCount(g.color, cs);
      DrawnIffPaints(geo, st.isEmpty, evs);
      Success((st.(pen := pen', penColor := g.color, isEmpty := Drawn(geo, st.isEmpty, evs)), evs))
    else if |g.points| == 0 then
      Failure(EmptyGroup(index))
    else
      var evs := [Dot(g.color, g.points[0], DotRadius(cfg))];
      DrawnIffPaints(geo, st.isEmpty, evs);
      Success((Reset(cfg, st).(isEmpty := Drawn(geo, st.isEmpty, evs)), evs))
  }

  /** The colour of the last group with more than one point, or `c` when there is none. */
  function LastStrokeColor(gs: seq<Group>, c: string): string
    decreases |gs|
  {
    if gs == [] then c
    else if |Last(gs).points| > 1 then Last(gs).color
    else LastStrokeColor(gs[..|gs| - 1], c)
  }

  /** Every group holds at least one point. */
  predicate NoEmptyGroup(gs: seq<Group>)
  {
    forall i :: 0 <= i < |gs| ==> |gs[i].points| > 0
  }

  /**
   The `_fromData` loop over all groups, in order. It succeeds exactly when
   no group is empty; otherwise it stops at the first empty group.
   */
  function ReplayAll(cfg: Config, geo: Geometry, st: Pad, gs: seq<Group>): (r: Result<(Pad, seq<Event>), ReplayError>)
    decreases |gs|
    ensures r.Success? <==> NoEmptyGroup(gs)
    ensures r.Failure? ==>
      && r.error.index < |gs|
      && |gs[r.error.index].points| == 0
      && NoEmptyGroup(gs[..r.error.index])
  {
    if gs == [] then Success((st, []))
    else
      var init := gs[..|gs| - 1];
      assert forall i :: 0 <= i < |init| ==> init[i] == gs[i];
      var prev := ReplayAll(cfg, geo, st, init);
      if prev.Failure? then
        assert gs[..prev.error.index] == init[..prev.error.index];
        prev
      else
        var last := ReplayGroup(cfg, geo, prev.value.0, Last(gs), |gs| - 1);
        if last.Failure? then
          assert init == gs[..|gs| - 1];
          last
        else
          Success((last.value.0, prev.value.1 + last.value.1))
  }

  /** One step of `ReplayAll`: replay all groups but the last, then the last one. */
  lemma ReplayAllStep(cfg: Config, geo: Geometry, st: Pad, gs: seq<Group>)
    requires gs != [] && NoEmptyGroup(gs)
    ensures NoEmptyGroup(gs[..|gs| - 1])
    ensures var (st1, e1) := ReplayAll(cfg, geo, st, gs[..|gs| - 1]).value;
      var r := ReplayGroup(cfg, geo, st1, Last(gs), |gs| - 1);
      && r.Success?
      && ReplayAll(cfg, geo, st, gs).value == (r.value.0, e1 + r.value.1)
  {
    var init := gs[..|gs| - 1];
    assert forall i :: 0 <= i < |init| ==> init[i] == gs[i];
  }

  /**
   A successful replay leaves the store untouched, leaves the pen colour as
   that of the last multi-point group, and leaves the pad empty exactly when
   nothing painted.
   */
  lemma {:induction false} ReplayAllState(cfg: Config, geo: Geometry, st: Pad, gs: seq<Group>)
    requires NoEmptyGroup(gs)
    ensures var r := ReplayAll(cfg, geo, st, gs).value;
      && r.0.data == st.data
      && r.0.penColor == LastStrokeColor(gs, st.penColor)
      && r.0.isEmpty == (st.isEmpty && !Paints(geo, r.1))
    decreases |gs|
  {
    if gs != [] {
      ReplayAllStep(cfg, geo, st, gs);
      var init := gs[..|gs| - 1];
      ReplayAllState(cfg, geo, st, init);
      var (st1, e1) := ReplayAll(cfg, geo, st, init).value;
      var e2 := ReplayGroup(cfg, geo, st1, Last(gs), |gs| - 1).value.1;
      PaintsAppend(geo, e1, e2);
    }
  }

  /** The number of groups replayed as a dot. */
  function DotGroups(gs: seq<Group>): nat
    decreases |gs|
  {
    if gs == [] then 0
    else DotGroups(gs[..|gs| - 1]) + (if |Last(gs).points| <= 1 then 1 else 0)
  }

  /** The number of curves replay draws: n - 2 for every group of n > 1 points. */
  function CurvesOf(gs: seq<Group>): nat
    decreases |gs|
  {
    if gs == [] then 0
    else CurvesOf(gs[..|gs| - 1]) + (if |Last(gs).points| > 1 then |Last(gs).points| - 2 else 0)
  }

  /** Replay draws one dot per single-point group and n - 2 curves per group of n > 1 points. */
  lemma {:induction false} ReplayCounts(cfg: Config, geo: Geometry, st: Pad, gs: seq<Group>)
    requires NoEmptyGroup(gs)
    ensures var evs := ReplayAll(cfg, geo, st, gs).value.1;
      && CountDots(evs) == DotGroups(gs)
      && CountCurves(evs) == CurvesOf(gs)
    decreases |gs|
  {
    if gs != [] {
      ReplayAllStep(cfg, geo, st, gs);
      var init := gs[..|gs| - 1];
      ReplayCounts(cfg, geo, st, init);
      var (st1, e1) := ReplayAll(cfg, geo, st, init).value;
      var e2 := ReplayGroup(cfg, geo, st1, Last(gs), |gs| - 1).value.1;
      CountAppend(e1, e2);
    }
  }

  /**
   `fromData`: clear the pad, replay the groups, then adopt them as the
   store. It fails at the first group without points.
   */
  function FromData(cfg: Config, geo: Geometry, st: Pad, gs: seq<Group>): (r: Result<(Pad, seq<Event>), ReplayError>)
    ensures r.Success? <==> NoEmptyGroup(gs)
    ensures r.Failure? ==> r.error.index < |gs| && |gs[r.error.index].points| == 0 && NoEmptyGroup(gs[..r.error.index])
    ensures r.Success? ==> r.value.0.data == gs && |r.value.1| > 0 && r.value.1[0] == Background(cfg.backgroundColor)
  {
    var (st1, e0) := Clear(cfg, st);
    match ReplayAll(cfg, geo, st1, gs)
    case Failure(e) => Failure(e)
    case Success((st2, evs)) => Success((st2.(data := gs), e0 + evs))
  }

  /** `toData`: the store as it stands, one group per stroke or dot, in capture order. */
  function ToData(st: Pad): (gs: seq<Group>)
    ensures |gs| == |st.data| && forall i :: 0 <= i < |gs| ==> gs[i] == st.data[i]
  {
    st.data
  }

  /** `fromData` succeeds exactly when no group is empty. */
  lemma FromDataSucceeds(cfg: Config, geo: Geometry, st: Pad, gs: seq<Group>)
    ensures FromData(cfg, geo, st, gs).Success? <==> NoEmptyGroup(gs)
  {
  }

  /**
   After a successful `fromData`, `toData` returns the groups given; the
   background is filled first, the pad is empty iff nothing painted, the pen
   colour is that of the last multi-point group, and one dot per
   single-point group and n - 2 curves per group of n > 1 points are drawn.
   */
  lemma {:induction false} FromDataRoundTrip(cfg: Config, geo: Geometry, st: Pad, gs: seq<Group>)
    requires NoEmptyGroup(gs)
    ensures var (st', evs) := FromData(cfg, geo, st, gs).value;
      && ToData(st') == gs
      && evs[0] == Background(cfg.backgroundColor)
      && st'.isEmpty == !Paints(geo, evs)
      && st'.penColor == LastStrokeColor(gs, st.penColor)
      && CountDots(evs) == DotGroups(gs)
      && CountCurves(evs) == CurvesOf(gs)
  {
    var (st1, e0) := Clear(cfg, st);
    var r := ReplayAll(cfg, geo, st1, gs).value;
    ReplayAllState(cfg, geo, st1, gs);
    ReplayCounts(cfg, geo, st1, gs);
    PaintsAppend(geo, e0, r.1);
    CountAppend(e0, r.1);
    assert forall i :: 0 <= i < |e0| ==> !Marks(geo, e0[i]);
  }

  /** Importing an empty store is the same as `clear`. */
  lemma FromDataEmptyIsClear(cfg: Config, geo: Geometry, st: Pad)
    ensures FromData(cfg, geo, st, []) == Success(Clear(cfg, st))
  {
    var (st1, e0) := Clear(cfg, st);
    assert ReplayAll(cfg, geo, st1, []) == Success((st1, []));
    assert st1.(data := []) == st1;
    assert e0 + [] == e0;
  }

  /**
   Export followed by import: the store of any sound pad replays without
   error into any pad, and exporting again gives the same store.
   */
  lemma CaptureReplay(cfg: Config, geo: Geometry, st: Pad, other: Pad)
    requires Sound(cfg, st)
    ensures FromData(cfg, geo, other, ToData(st)).Success?
    ensures ToData(FromData(cfg, geo, other, ToData(st)).value.0) == ToData(st)
  {
    FromDataSucceeds(cfg, geo, other, ToData(st));
  }

  /** Replay keeps width bounds and a short buffer, so a replayed pad is sound again. */
  lemma {:induction false} ReplayAllKeepsWidth(cfg: Config, geo: Geometry, st: Pad, gs: seq<Group>)
    requires WidthBounds(cfg) && cfg.minWidth <= st.pen.lastWidth <= cfg.maxWidth
    requires NoEmptyGroup(gs)
    ensures cfg.minWidth <= ReplayAll(cfg, geo, st, gs).value.0.pen.lastWidth <= cfg.maxWidth
    decreases |gs|
  {
    if gs != [] {
      ReplayAllStep(cfg, geo, st, gs);
      var init := gs[..|gs| - 1];
      ReplayAllKeepsWidth(cfg, geo, st, init);
      var st1 := ReplayAll(cfg, geo, st, init).value.0;
      if |Last(gs).points| > 1 {
        FeedWidthsInRange(cfg, geo, Fresh(cfg), Last(gs).points);
      }
    }
  }

  /** A successful `fromData` leaves a sound pad. */
  lemma FromDataSound(cfg: Config, geo: Geometry, st: Pad, gs: seq<Group>)
    requires WidthBounds(cfg) && NoEmptyGroup(gs)
    ensures FromData(cfg, geo, st, gs).Success?
    ensures Sound(cfg, FromData(cfg, geo, st, gs).value.0)
  {
    var (st1, e0) := Clear(cfg, st);
    ReplayAllKeepsWidth(cfg, geo, st1, gs);
  }

  /**
   Replay redraws what capture drew. Replaying the group a stroke recorded,
   into any pad, draws the stroke's curves exactly, in order and in its
   colour, and leaves the same pen state and pen colour; only the leading dot
   of the stroke is not redrawn. A stroke whose samples were all filtered
   after the first is replayed as the same single dot.
   */
  lemma ReplayRedrawsStroke(cfg: Config, geo: Geometry, st: Pad, other: Pad, first: Sample, rest: seq<Sample>, index: nat)
    ensures var (st', evs) := Stroke(cfg, geo, st, first, rest);
      var kept := Retained(cfg, geo, [ToPoint(first)], rest);
      var r := ReplayGroup(cfg, geo, other, Group(st.penColor, kept), index);
      && r.Success?
      && (|kept| > 1 ==> |evs| > 0 && r.value.1 == evs[1..] && r.value.0.pen == st'.pen && r.value.0.penColor == st'.penColor)
      && (|kept| == 1 ==> r.value.1 == evs)
  {
    var p0 := ToPoint(first);
    var (st1, e1) := Begin(cfg, geo, st, first);
    var (st2, e2) := Updates(cfg, geo, st1, rest);
    var kept := Retained(cfg, geo, [p0], rest);
    BeginStartsGroup(cfg, geo, st, first);
    assert Last(st1.data) == Group(st.penColor, [p0]);
    UpdatesFeed(cfg, geo, st1, rest);
    assert e2 == CurveEvents(st.penColor, Feed(cfg, geo, st1.pen, kept[1..]).1);
    assert st2.pen == Feed(cfg, geo, st1.pen, kept[1..]).0;
    UpdatesInStroke(cfg, geo, st1, rest);
    assert kept[..1] == [p0];
    FeedStep(cfg, geo, Fresh(cfg), kept);
    assert AddPoint(cfg, geo, Fresh(cfg), p0).0 == st1.pen;
    if |kept| == 1 {
      assert kept == [p0];
      assert kept[1..] == [];
    }
  }
}

=== FILE: wrappers.dfy ===
/** The Option and Result types used across the model. */
module Wrappers {

  /** A value that may be absent (an optional argument or a missing curve). */
  datatype Option<+T> = None | Some(value: T)

  /** The outcome of an operation that can fail with an error of type E. */
  datatype Result<+R, +E> = Success(value: R) | Failure(error: E)
}
